=== FILE: README.md ===
# memorized-moebius in Dafny

A model of `src/index.ts` of memorized-moebius: the builder of a
"universal stand-in" value for tests. A build folds an ordered list of
stages over `null`. The initial stage makes a fresh callable target whose
call runs a whole new build. The Proxy stage puts the target behind a get
trap that answers any key it does not already hold by running a whole new
build and storing the result, and a set trap that assigns the value on the
target and reports success. The default builder adds an optional jest wrap
before the Proxy stage and a finalizer after it that makes `toString()`
return `'[whatever Moebius]'` and `valueOf()` return `42`, and sets `then`
and `calls` to `undefined`. Those hooks answer direct calls; `String(v)` and
`+v` never reach them (see Findings).

The conceptually infinite tree of values is made finite by an explicit
heap:

- `Objects`: keys (strings and symbols), values, function objects
  (own key store, call behaviour, whether they sit behind the Proxy), the
  heap with its fresh-identity counter, and the heap invariant `Valid`.
  `Env` fixes the keys every function answers natively (own `length` and
  `name`, inherited ones) and the own properties of a jest mock.
- `Stages`: the four stages as a datatype, `RunStage`, the left fold
  `RunFrom`, `Build`, and the two builders `MoebiusBuilder` and
  `DefaultBuilder`.
- `Traps`: `Get` (the get trap), `Set` (the set trap), `Call`, and
  `Invoke` (`value[k]()`).
- `Session`: a sequence of reads, writes and calls by test code.
- `Coercion`: ToPrimitive and OrdinaryToPrimitive (sections 7.1.1 and
  7.1.1.1 of ECMA-262) on a built value, through the get trap as written or
  through a get trap that lets missing symbol keys read as `undefined`.
- `PipelineLaws`, `ProxyLaws`, `CoercionLaws`: the properties.

A value behind the Proxy is represented by its target's identity with the
target marked as trapped. Without jest the raw target never escapes once
it is wrapped, so no code can tell the two apart. With jest, the mock's own
methods can hand out the raw mock (see Left out).

Where descriptions of this library and the code differ, the model follows
the code:

- Calling a built value is not memoised. `() => runPipeline()` runs a
  fresh build on every call (`ProxyLaws.CallNotMemoised`).
- Symbol keys get no special treatment. Any key the target does not
  answer is built lazily (`ProxyLaws.NoSymbolBypass`).

## Model

| member | source | states |
|---|---|---|
| Objects.Store | src/index.ts:15 | `target[key] = value` sets exactly that own key, keeps the heap valid, and changes no other object |
| Stages.FinalizeOn | src/index.ts:26-32 | after the finalizer's four writes (`Stages.FinalizedHeap`), `toString` and `valueOf` hold two distinct newly allocated hooks returning the two sentinels, `then` and `calls` hold `undefined`, the target gains exactly those four own keys, every other own key keeps its value, and no other object changes |
| Stages.RunStage | src/index.ts:12-32 | a stage fails exactly when the Proxy stage or the finalizer gets something other than a heap object (`new Proxy` and the property writes throw on `null` and `undefined`); the initial stage returns a fresh callable target; the Proxy stage hands on the same value, now behind the Proxy, with its key store and call behaviour unchanged; the finalizer hands on the same value, finalized, with new hooks, its other own keys, call behaviour and Proxy unchanged; only the input object may change |
| Stages.RunFrom | src/index.ts:10 | the fold keeps the heap valid, returns its input or a freshly allocated object, and changes no object other than its input |
| Stages.Build | src/index.ts:10 | a build returns the `null` seed or an object it allocated, and leaves every object that existed before unchanged |
| Stages.MoebiusBuilder | src/index.ts:7-22 | the callable-target stage is the one initial stage and the Proxy stage the one pipeline stage, so a stage unshifted later runs between them |
| Stages.Unshift | src/index.ts:25 | `unshift` puts the stage first among the pipeline stages, after all initial stages |
| Stages.Push | src/index.ts:26 | `push` puts the stage last |
| Stages.DefaultBuilder | src/index.ts:24-32 | the callable-target stage stays the one initial stage; the pipeline stages are the jest wrap, the Proxy stage and the finalizer, in that order |
| Traps.Get | src/index.ts:14 | with `key in target` as `Objects.Lookup` (own store, then native keys): a key the target answers returns the stored value and changes nothing; a missing key behind the Proxy is stored and returned; a nested build's failure propagates; keys already answered never change |
| Traps.Set | src/index.ts:15 | a write always reports success, stores `v` under `k`, and changes no other key or object |
| Traps.Call | src/index.ts:12 | a call changes no object that existed before it and keeps the heap valid; what it returns is stated by `ProxyLaws.CallRunsBuild` and `CoercionLaws.FinalizedHooksAnswer` |
| Traps.Invoke | src/index.ts:27-28 | `value[k]()` keeps the heap valid and returns a valid value |
| Session.Apply | src/index.ts:14-15 | no access changes an existing object's call behaviour or Proxy; a write fails only on an object that does not exist |
| Session.RunSession | src/index.ts:14-15 | a whole session keeps the heap valid and keeps every object's call behaviour and Proxy |
| PipelineLaws.RunFromConcat | src/index.ts:10 | folding `a + b` equals folding `a` and then folding `b` from its result |
| PipelineLaws.BuildRunsInitialThenStages | src/index.ts:10 | a build runs all initial stages from `null`, then all pipeline stages from their result |
| PipelineLaws.EmptyPipelineYieldsSeed | src/index.ts:10 | with no stages, a build returns `null` and allocates nothing |
| PipelineLaws.JestAbsentPassesThrough | src/index.ts:25 | without jest, the wrap stage returns its input unchanged |
| PipelineLaws.JestPresentWraps | src/index.ts:25 | with jest, the wrap stage returns a fresh mock that forwards calls to its input and changes nothing else |
| PipelineLaws.MakeThenJest | src/index.ts:12-25 | the initial stage plus the jest wrap yield a fresh object whose call runs a build, owning only jest's keys or none |
| PipelineLaws.ProxyThenFinalize | src/index.ts:13-32 | the Proxy stage plus the finalizer hand on the same target, behind the Proxy, finalized, with the four finalizer keys added |
| PipelineLaws.DefaultBuildShape | src/index.ts:10-32 | a default build always succeeds with a fresh object that sits behind the Proxy, is finalized, runs a build when called, and owns exactly the finalizer's keys (plus jest's) |
| ProxyLaws.GetMissBuildsOnce | src/index.ts:14 | reading a missing key runs exactly one build from the current heap, returns its value, stores it, leaves other keys alone, and keeps every object of that build other than the target exactly as the build left it |
| ProxyLaws.LazyChildReady | src/index.ts:10-32 | on the default builder, a read of a missing key returns a complete built value: fresh, behind the Proxy, finalized, running a build when called, owning exactly the finalizer's keys (plus jest's) |
| ProxyLaws.GetMemoised | src/index.ts:14 | a second read of the same key returns the identical value and changes nothing |
| ProxyLaws.DistinctKeysDistinctChildren | src/index.ts:14 | first reads of two different keys yield two different fresh values |
| ProxyLaws.NoSymbolBypass | src/index.ts:14 | a symbol key a default-built value does not answer is built and stored like any string key |
| ProxyLaws.SetThenGet | src/index.ts:14-15 | after a write of `v`, the write reported success and a read returns exactly `v`, even `undefined`, without a build |
| ProxyLaws.ApplyKeepsPresent | src/index.ts:14-15 | one access that does not write key `k` leaves the answer of an already answered `k` unchanged |
| ProxyLaws.SessionKeepsPresent | src/index.ts:14-15 | a whole session of reads, writes and calls that does not write `k` leaves an already answered `k` unchanged |
| ProxyLaws.ReadStaysMemoised | src/index.ts:14 | after a first read, any session of reads, writes and calls that does not write that key leaves later reads returning the identical value with no build |
| ProxyLaws.ApplyLeavesOthers | src/index.ts:12-15 | an access that does not name object `b` leaves `b` exactly as it was |
| ProxyLaws.SessionLeavesOthers | src/index.ts:12-15 | a session that never names `b` leaves `b` exactly as it was |
| ProxyLaws.BuildsAreIndependent | src/index.ts:10-12 | two builds yield distinct values; any session of reads, writes and calls on the first leaves every key of the second answering as before |
| ProxyLaws.CallRunsBuild | src/index.ts:12 | calling the callable target, or a jest mock around it, is exactly one new build with the current pipeline |
| ProxyLaws.CallNotMemoised | src/index.ts:12 | two calls of a built value return two different fresh values, each a complete default-built value (behind the Proxy, finalized, callable), and leave the called value unchanged |
| CoercionLaws.FinalizedHooksAnswer | src/index.ts:27-28 | on a finalized value, `toString()` returns `'[whatever Moebius]'` and `valueOf()` returns `42`, with no build |
| CoercionLaws.FinalizedNotThenable | src/index.ts:29-30 | on a finalized value, `then` and `calls` read as `undefined` from the store, with no build |
| CoercionLaws.SessionKeepsFinalized | src/index.ts:14-30 | a finalized value stays finalized through any session of reads, writes and calls that does not write its four finalizer keys |
| Coercion.GetBypassingSymbols | src/index.ts:14 | the corrected get trap: a symbol key the target lacks reads as `undefined` without a build; every other read is the get trap as written |
| Coercion.ToPrimitive | src/index.ts:14-28 | a conversion that succeeds yields a primitive and keeps the heap valid, whichever get trap it reads through |
| CoercionLaws.CoercionThrowsAsWritten | src/index.ts:14 | as written, `String(v)`, `+v` and `v + ''` throw a `TypeError` on a default-built value, because reading `Symbol.toPrimitive` builds a callable whose call returns an object |
| CoercionLaws.CoercionReachesHooks | src/index.ts:14-28 | with the corrected get trap, converting a finalized value yields `'[whatever Moebius]'` for a string hint and `42` otherwise, with no build |
| CoercionLaws.DefaultCoercionWithBypass | src/index.ts:14-32 | with the corrected get trap, a default-built value converts to `'[whatever Moebius]'` and `42` |
| CoercionLaws.DefaultHooksStable | src/index.ts:24-32 | a default build always yields an object, and that value keeps answering the two sentinels, and `undefined` for `then` and `calls`, after any session of reads, writes and calls that ends without failure and writes none of its four finalizer keys |

## Left out

- `src/repl.ts`: console output, the `vm` sandbox and the REPL loop are I/O around one built value.
- jest's mock methods (`mockClear`, `mockReset`, `mockImplementation`, `mockName` and others) return the raw mock, which is not behind the Proxy: reading a missing key on it gives `undefined` with no build. The model gives the mock's own properties opaque `Native` values and treats calling them as `Foreign`, so it does not model this escape.
- jest's real behaviour is not modelled. The mock's own properties are opaque `Native` values, its recording of calls is not modelled, and it is only ever built around the callable target or `null`.
- Call arguments and `this` are not modelled. No modelled behaviour reads them.
- Prototype-chain mechanics: the keys every function answers natively are a fixed `Env.builtins` map with opaque values. Reading the inherited accessors `caller` and `arguments` through the get trap throws a `TypeError` in the code (their getters throw on an arrow function). The model returns their `Native` value instead.
- Traps.Set: does not model the keys where `target[key] = value` (src/index.ts:15, strict module code) does not store an own property. Writing the non-writable own `length` or `name`, or the inherited non-writable `Symbol.hasInstance`, throws a `TypeError`. So does writing the inherited accessors `caller` and `arguments`, whose setters throw. Writing `__proto__` replaces the prototype instead. The model stores the value under every key and reports success.
- Traps.Invoke: its contract states only that the heap stays valid. What `toString()` and `valueOf()` return is stated by `CoercionLaws.FinalizedHooksAnswer`.
- Stages.RunStage: fails on an opaque host value (`Native`) given to the Proxy stage or the finalizer, although a real host function could be wrapped and written to. No build passes one to these stages: the initial stage always yields a heap object.
- Coercion: `Coercion.ToPrimitive` ignores the hint argument passed to a `Symbol.toPrimitive` method, because no modelled function reads its arguments. The rest of the model follows the code: sessions read through the get trap as written, not through `Coercion.GetBypassingSymbols`.
- Numbers are mathematical integers. Only the constant `42` occurs.
- Stages supplied by users are arbitrary JavaScript functions, so they cannot be modelled. `Stage` has only the four stages the builders install.
- Session.RunSession: runs every access with one fixed pipeline `p`. In the code the stage arrays are exported (src/index.ts:19) and can be changed between two accesses, and `runPipeline` reads them afresh on every call (src/index.ts:10). Lazy reads and calls after such a change would use the new stages.
- Session.Op: only reads, writes and calls. The Proxy defines only `get` and `set` traps (src/index.ts:13-16), so `delete`, `Object.defineProperty`, `Object.preventExtensions`/`Object.freeze` and `Object.setPrototypeOf` reach the target directly. They can remove a memoised key, make a lazy read throw at line 14's assignment or a write throw at line 15's, or change the inherited keys that `Env.builtins` fixes. The session laws (`SessionKeepsPresent`, `ReadStaysMemoised`, `SessionKeepsFinalized`, `DefaultHooksStable`, `BuildsAreIndependent`) cover only sessions of reads, writes and calls.
- Unbounded access depth is not a limit of the model. Each access allocates on demand.
- The `Dangling` error belongs to the model only. Real code cannot name an object that was never allocated.

## Findings

| source | as written | input that shows it | evidently intended | confidence | as-written member | corrected member |
|---|---|---|---|---|---|---|
| src/index.ts:14 | the get trap builds and stores a value for every key the target lacks, `Symbol.toPrimitive` included | `String(build())` or `+build()`: ToPrimitive reads `Symbol.toPrimitive`, gets a freshly built callable, calls it, gets an object back and throws a `TypeError`, so the hooks of lines 27-28 are never reached | symbol keys the target lacks read as `undefined` without a build, so a conversion reaches `toString`/`valueOf` and yields `'[whatever Moebius]'` or `42` | high that it throws; medium that a symbol bypass is the intended repair; not executed | CoercionLaws.CoercionThrowsAsWritten | CoercionLaws.CoercionReachesHooks |

=== FILE: coercion.dfy ===
/** How `String(v)`, `+v` and `v + ''` turn a built value into a primitive:
    ToPrimitive and OrdinaryToPrimitive, sections 7.1.1 and 7.1.1.1 of
    ECMA-262, run through the get trap and calls of the model.

    The reads go either through the get trap as the code has it or through
    a get trap that lets symbol keys the target lacks read as `undefined`;
    `bypass` chooses. */
module Coercion {
  import opened Results
  import opened Objects
  import opened Stages
  import opened Traps

  /** The preferred type: `String(v)` asks for a string, `+v` for a number,
      `v + ''` gives no preference (which ends up as a number). */
  datatype Hint = StringHint | NumberHint | DefaultHint

  /** The well-known symbol `Symbol.toPrimitive`. */
  const ToPrimitiveKey: Key := Symbol(0)

  /** Values that are not objects. */
  predicate IsPrimitive(v: Val) {
    v.Undefined? || v.Null? || v.Text? || v.Number?
  }

  /** A get trap that answers a symbol key the target lacks with
      `undefined` and builds nothing; every other read is the get trap as
      written. */
  function GetBypassingSymbols(env: Env, p: Pipeline, h: Heap, id: NodeId, k: Key): (r: Result<(Val, Heap)>)
    requires Valid(h) && id in h.objs
    ensures k.Symbol? && Lookup(env, h, id, k).None? ==> r == Ok((Undefined, h))
    ensures k.Name? || Lookup(env, h, id, k).Some? ==> r == Get(env, p, h, id, k)
    ensures r.Ok? ==> Valid(r.value.1) && ValidVal(r.value.1, r.value.0) && Keeps(h, r.value.1)
  {
    if k.Symbol? && Lookup(env, h, id, k).None? then Ok((Undefined, h))
    else Get(env, p, h, id, k)
  }

  /** `value[k]` during a coercion, through the trap `bypass` selects. */
  function ReadKey(env: Env, p: Pipeline, h: Heap, id: NodeId, k: Key, bypass: bool): (r: Result<(Val, Heap)>)
    requires Valid(h) && id in h.objs
    ensures r.Ok? ==> Valid(r.value.1) && ValidVal(r.value.1, r.value.0) && Grows(h, r.value.1)
    ensures !bypass ==> r == Get(env, p, h, id, k)
  {
    if bypass then GetBypassingSymbols(env, p, h, id, k) else Get(env, p, h, id, k)
  }

  /** One step of OrdinaryToPrimitive: reads method `k` and, when it is
      callable, calls it. `Some(x)` is a primitive answer; `None` means the
      method was not callable or returned an object, so the next one is
      tried. What a host function would do is unknown (`Foreign`). */
  function TryMethod(env: Env, p: Pipeline, h: Heap, id: NodeId, k: Key, bypass: bool): (r: Result<(Option<Val>, Heap)>)
    requires Valid(h) && id in h.objs
    ensures r.Ok? ==> Valid(r.value.1) && Grows(h, r.value.1)
    ensures r.Ok? && r.value.0.Some? ==> IsPrimitive(r.value.0.value)
  {
    match ReadKey(env, p, h, id, k, bypass)
    case Err(e) => Err(e)
    case Ok((m, h1)) =>
      match m
      case Ref(j) =>
        (match Call(env, p, h1, j)
         case Err(e) => Err(e)
         case Ok((x, h2)) =>
           if IsPrimitive(x) then Ok((Some(x), h2))
           else if x.Ref? then Ok((None, h2))
           else Err(Foreign))
      case Native(_) => Err(Foreign)
      case _ => Ok((None, h1))
  }

  /** OrdinaryToPrimitive: `toString` then `valueOf` for a string hint,
      the other order otherwise; the first primitive answer wins, and with
      none the conversion throws a `TypeError`. */
  function OrdinaryToPrimitive(env: Env, p: Pipeline, h: Heap, id: NodeId, hint: Hint, bypass: bool): (r: Result<(Val, Heap)>)
    requires Valid(h) && id in h.objs
    ensures r.Ok? ==> IsPrimitive(r.value.0) && Valid(r.value.1) && Grows(h, r.value.1)
  {
    var first := if hint == StringHint then ToStringKey else ValueOfKey;
    var second := if hint == StringHint then ValueOfKey else ToStringKey;
    match TryMethod(env, p, h, id, first, bypass)
    case Err(e) => Err(e)
    case Ok((Some(x), h1)) => Ok((x, h1))
    case Ok((None, h1)) =>
      match TryMethod(env, p, h1, id, second, bypass)
      case Err(e) => Err(e)
      case Ok((Some(x), h2)) => Ok((x, h2))
      case Ok((None, _)) => Err(TypeError)
  }

  /** ToPrimitive on the object `id`: a callable `Symbol.toPrimitive` is
      called and must return a primitive, or the conversion throws; when
      that key reads as `undefined` or `null`, OrdinaryToPrimitive runs. */
  function ToPrimitive(env: Env, p: Pipeline, h: Heap, id: NodeId, hint: Hint, bypass: bool): (r: Result<(Val, Heap)>)
    requires Valid(h) && id in h.objs
    ensures r.Ok? ==> IsPrimitive(r.value.0) && Valid(r.value.1) && Grows(h, r.value.1)
  {
    match ReadKey(env, p, h, id, ToPrimitiveKey, bypass)
    case Err(e) => Err(e)
    case Ok((m, h1)) =>
      match m
      case Undefined => OrdinaryToPrimitive(env, p, h1, id, hint, bypass)
      case Null => OrdinaryToPrimitive(env, p, h1, id, hint, bypass)
      case Ref(j) =>
        (match Call(env, p, h1, j)
         case Err(e) => Err(e)
         case Ok((x, h2)) =>
           if IsPrimitive(x) then Ok((x, h2))
           else if x.Ref? then Err(TypeError)
           else Err(Foreign))
      case Native(_) => Err(Foreign)
      case _ => Err(TypeError)
  }
}

=== FILE: coercion_laws.dfy ===
/** Properties of the coercion finalizer: fixed answers for `toString()` and
    `valueOf()`, `then` and `calls` present and undefined, and both kept for
    the rest of a session that does not overwrite them. */
module CoercionLaws {
  import opened Results
  import opened Objects
  import opened Stages
  import opened Traps
  import opened Session
  import opened PipelineLaws
  import opened ProxyLaws
  import opened Coercion

  /** On a finalized value `toString()` yields the string sentinel and
      `valueOf()` the number sentinel; neither read builds anything. */
  lemma FinalizedHooksAnswer(env: Env, p: Pipeline, h: Heap, id: NodeId)
    requires Valid(h) && Finalized(env, h, id)
    ensures Invoke(env, p, h, id, ToStringKey) == Ok((Text(StringSentinel), h))
    ensures Invoke(env, p, h, id, ValueOfKey) == Ok((Number(NumberSentinel), h))
  {
  }

  /** On a finalized value `then` and `calls` read as `undefined` straight
      from the store, not as lazily built values, so the value is neither
      thenable nor mistaken for a mock with call history. */
  lemma FinalizedNotThenable(env: Env, p: Pipeline, h: Heap, id: NodeId)
    requires Valid(h) && Finalized(env, h, id)
    ensures Get(env, p, h, id, ThenKey) == Ok((Undefined, h))
    ensures Get(env, p, h, id, CallsKey) == Ok((Undefined, h))
  {
  }

  /** Whether a session step writes one of the finalizer's keys on `id`. */
  predicate TouchesFinalKeys(op: Op, id: NodeId) {
    op.Write? && op.target == id && op.key in FinalKeys
  }

  /** A session that leaves the finalizer's keys of `id` alone writes none
      of them in particular. */
  lemma NotTouchingNotWriting(ops: seq<Op>, id: NodeId, k: Key)
    requires k in FinalKeys
    requires forall i :: 0 <= i < |ops| ==> !TouchesFinalKeys(ops[i], id)
    ensures forall i :: 0 <= i < |ops| ==> !WritesTo(ops[i], id, k)
  {
  }

  /** A hook found under the same key on a heap that kept every object's
      call behaviour still returns the same constant. */
  lemma HookStays(env: Env, h: Heap, h': Heap, id: NodeId, k: Key, c: Val)
    requires id in h.objs && id in h'.objs && Keeps(h, h')
    requires HookReturns(env, h, id, k, c) && Lookup(env, h', id, k) == Lookup(env, h, id, k)
    ensures HookReturns(env, h', id, k, c)
  {
  }

  /** A finalized value stays finalized through any session that does not
      write one of the finalizer's keys on it: reads of any key (these four
      included), writes elsewhere and calls leave all four answers alone. */
  lemma SessionKeepsFinalized(env: Env, p: Pipeline, h: Heap, ops: seq<Op>, id: NodeId)
    requires Valid(h) && Finalized(env, h, id)
    requires forall i :: 0 <= i < |ops| ==> !TouchesFinalKeys(ops[i], id)
    ensures RunSession(env, p, h, ops).Ok? ==> Finalized(env, RunSession(env, p, h, ops).value, id)
  {
    if RunSession(env, p, h, ops).Err? { return; }
    var h' := RunSession(env, p, h, ops).value;
    NotTouchingNotWriting(ops, id, ToStringKey);
    SessionKeepsPresent(env, p, h, ops, id, ToStringKey);
    HookStays(env, h, h', id, ToStringKey, Text(StringSentinel));
    NotTouchingNotWriting(ops, id, ValueOfKey);
    SessionKeepsPresent(env, p, h, ops, id, ValueOfKey);
    HookStays(env, h, h', id, ValueOfKey, Number(NumberSentinel));
    NotTouchingNotWriting(ops, id, ThenKey);
    SessionKeepsPresent(env, p, h, ops, id, ThenKey);
    NotTouchingNotWriting(ops, id, CallsKey);
    SessionKeepsPresent(env, p, h, ops, id, CallsKey);
  }

  /** ToPrimitive throws once `Symbol.toPrimitive` reads as a function
      whose call returns an object. */
  lemma ExoticObjectRejected(env: Env, p: Pipeline, h: Heap, id: NodeId, hint: Hint, c: NodeId)
    requires Valid(h) && id in h.objs
    requires var g := Get(env, p, h, id, ToPrimitiveKey);
      && g.Ok? && g.value.0 == Ref(c)
      && var k := Call(env, p, g.value.1, c);
      k.Ok? && k.value.0.Ref?
    ensures ToPrimitive(env, p, h, id, hint, false) == Err(TypeError)
  {
  }

  /** A stored child of the default builder, when called, returns another
      object. */
  lemma ChildCallReturnsObject(env: Env, jestPresent: bool, h: Heap, c: NodeId)
    requires Valid(h) && c in h.objs && CallsRebuild(h, c)
    ensures var k := Call(env, DefaultBuilder(jestPresent), h, c);
      k.Ok? && k.value.0.Ref?
  {
    CallRunsBuild(env, DefaultBuilder(jestPresent), h, c);
    DefaultBuildShape(env, jestPresent, h);
  }

  /** As the get trap is written, `String(v)`, `+v` and `v + ''` all throw
      a `TypeError` on a value of the default builder: `Symbol.toPrimitive`
      is a key it lacks, so reading it builds and stores a new callable
      value, and calling that returns an object, which ToPrimitive rejects.
      The finalizer's hooks are never reached. */
  lemma CoercionThrowsAsWritten(env: Env, jestPresent: bool, h: Heap, hint: Hint)
    requires Valid(h)
    requires ToPrimitiveKey !in env.builtins && (jestPresent ==> ToPrimitiveKey !in env.mockKeys)
    ensures var p := DefaultBuilder(jestPresent);
      var b := Build(env, p, h);
      && b.Ok? && b.value.0.Ref? && b.value.0.id in b.value.1.objs
      && ToPrimitive(env, p, b.value.1, b.value.0.id, hint, false) == Err(TypeError)
  {
    var p := DefaultBuilder(jestPresent);
    DefaultBuildShape(env, jestPresent, h);
    var b := Build(env, p, h);
    var t := b.value.0.id;
    var h0 := b.value.1;
    assert Lookup(env, h0, t, ToPrimitiveKey).None? by {
      assert ToPrimitiveKey !in FinalKeys;
    }
    DefaultBuildShape(env, jestPresent, h0);
    var child := Build(env, p, h0).value;
    var c := child.0.id;
    var h1 := Store(child.1, t, ToPrimitiveKey, Ref(c));
    assert Get(env, p, h0, t, ToPrimitiveKey) == Ok((Ref(c), h1));
    assert CallsRebuild(h1, c) by {
      assert h1.objs[c] == child.1.objs[c];
      assert CallsRebuild(child.1, c);
    }
    ChildCallReturnsObject(env, jestPresent, h1, c);
    ExoticObjectRejected(env, p, h0, t, hint, c);
  }

  /** With a get trap that lets symbol keys the target lacks read as
      `undefined`, ToPrimitive on a finalized value reaches the finalizer's
      hooks: a string hint yields `'[whatever Moebius]'`, the other hints
      yield `42`, and nothing is built. */
  lemma CoercionReachesHooks(env: Env, p: Pipeline, h: Heap, id: NodeId, hint: Hint)
    requires Valid(h) && Finalized(env, h, id) && Lookup(env, h, id, ToPrimitiveKey).None?
    ensures ToPrimitive(env, p, h, id, hint, true)
         == Ok((if hint == StringHint then Text(StringSentinel) else Number(NumberSentinel), h))
  {
    assert ReadKey(env, p, h, id, ToPrimitiveKey, true) == Ok((Undefined, h));
    FinalizedHooksAnswer(env, p, h, id);
  }

  /** With that get trap, a fresh value of the default builder converts to
      `'[whatever Moebius]'` as a string and to `42` as a number. */
  lemma DefaultCoercionWithBypass(env: Env, jestPresent: bool, h: Heap, hint: Hint)
    requires Valid(h)
    requires ToPrimitiveKey !in env.builtins && (jestPresent ==> ToPrimitiveKey !in env.mockKeys)
    ensures var p := DefaultBuilder(jestPresent);
      var b := Build(env, p, h);
      && b.Ok? && b.value.0.Ref? && b.value.0.id in b.value.1.objs
      && ToPrimitive(env, p, b.value.1, b.value.0.id, hint, true)
         == Ok((if hint == StringHint then Text(StringSentinel) else Number(NumberSentinel), b.value.1))
  {
    var p := DefaultBuilder(jestPresent);
    DefaultBuildShape(env, jestPresent, h);
    var b := Build(env, p, h);
    assert ToPrimitiveKey !in FinalKeys;
    CoercionReachesHooks(env, p, b.value.1, b.value.0.id, hint);
  }

  /** End to end: a value of the default builder answers `toString()` with
      `'[whatever Moebius]'` and `valueOf()` with `42`, and `then` and
      `calls` with `undefined`, after any session of reads, calls and writes
      that leaves those four keys of it alone. */
  lemma DefaultHooksStable(env: Env, jestPresent: bool, h: Heap, ops: seq<Op>)
    requires Valid(h)
    ensures var p := DefaultBuilder(jestPresent);
      var b := Build(env, p, h);
      && b.Ok? && b.value.0.Ref?
      && ((forall i :: 0 <= i < |ops| ==> !TouchesFinalKeys(ops[i], b.value.0.id))
          && RunSession(env, p, b.value.1, ops).Ok? ==>
            var t := b.value.0.id;
            var h' := RunSession(env, p, b.value.1, ops).value;
            && t in h'.objs
            && Invoke(env, p, h', t, ToStringKey) == Ok((Text(StringSentinel), h'))
            && Invoke(env, p, h', t, ValueOfKey) == Ok((Number(NumberSentinel), h'))
            && Get(env, p, h', t, ThenKey) == Ok((Undefined, h'))
            && Get(env, p, h', t, CallsKey) == Ok((Undefined, h')))
  {
    var p := DefaultBuilder(jestPresent);
    DefaultBuildShape(env, jestPresent, h);
    var b := Build(env, p, h);
    if (forall i :: 0 <= i < |ops| ==> !TouchesFinalKeys(ops[i], b.value.0.id))
       && RunSession(env, p, b.value.1, ops).Ok? {
      SessionKeepsFinalized(env, p, b.value.1, ops, b.value.0.id);
      var h' := RunSession(env, p, b.value.1, ops).value;
      FinalizedHooksAnswer(env, p, h', b.value.0.id);
      FinalizedNotThenable(env, p, h', b.value.0.id);
    }
  }
}

=== FILE: objects.dfy ===
/** The objects a build creates, kept on an explicit heap.

    Every object the modelled code allocates is a JavaScript function: the
    callable target of the initial stage, the mock jest wraps around it, and
    the two coercion hooks of the finalizer. An object is a key store, the
    behaviour its call runs, and whether it sits behind the lazy Proxy. */
module Objects {
  import opened Results

  type NodeId = nat

  /** A property key: JavaScript keys are strings or symbols. */
  datatype Key = Name(name: string) | Symbol(tag: nat)

  /** The values the model distinguishes. */
  datatype Val =
    | Undefined
    | Null
    | Text(text: string)
    | Number(number: int)
    /** A host-provided value (an inherited method, a jest helper), opaque. */
    | Native(tag: nat)
    /** A function object on the heap, seen through its Proxy when it has one. */
    | Ref(id: NodeId)

  /** What calling a function object does. Arguments are never consulted. */
  datatype Behaviour =
    /** `() => runPipeline()`: every call runs a fresh build. */
    | Rebuild
    /** An arrow returning a constant, as the coercion hooks do. */
    | Returns(result: Val)
    /** `jest.fn(impl)`: a call is forwarded to `impl`. */
    | Mock(impl: Val)

  /** `own` holds the properties stored on the object itself; `trapped` says
      that reads and writes go through the lazy Proxy's traps. */
  datatype Obj = Obj(own: map<Key, Val>, behaviour: Behaviour, trapped: bool)

  /** Allocated objects and the next fresh identity. */
  datatype Heap = Heap(objs: map<NodeId, Obj>, next: NodeId)

  /** The fixed surroundings of every object: `builtins` are the keys every
      function answers natively (own `length` and `name`, and those inherited
      along the prototype chain), and `mockKeys` the own properties `jest.fn`
      puts on a mock. */
  datatype Env = Env(builtins: map<Key, nat>, mockKeys: map<Key, nat>)

  /** A value refers only to allocated objects. */
  predicate ValidVal(h: Heap, v: Val) {
    v.Ref? ==> v.id in h.objs
  }

  /** An object refers only to allocated objects, and a mock only to an
      object allocated before it (which makes forwarding calls terminate). */
  predicate ValidObj(h: Heap, id: NodeId, o: Obj) {
    && (forall k :: k in o.own ==> ValidVal(h, o.own[k]))
    && match o.behaviour
       case Rebuild => true
       case Returns(c) => ValidVal(h, c)
       case Mock(impl) => impl.Ref? ==> impl.id < id && impl.id in h.objs
  }

  /** The heap invariant every operation keeps. */
  predicate Valid(h: Heap) {
    forall id :: id in h.objs ==> id < h.next && ValidObj(h, id, h.objs[id])
  }

  /** `h'` has every object of `h` and has not reused an identity. */
  predicate Grows(h: Heap, h': Heap) {
    h.next <= h'.next && h.objs.Keys <= h'.objs.Keys
  }

  /** `h'` grows `h` and no object of `h` changed its call behaviour or
      whether it sits behind the Proxy; only key stores may differ. */
  predicate Keeps(h: Heap, h': Heap) {
    && Grows(h, h')
    && forall id :: id in h.objs ==>
         h'.objs[id].behaviour == h.objs[id].behaviour && h'.objs[id].trapped == h.objs[id].trapped
  }

  lemma KeepsTransitive(h: Heap, h': Heap, h'': Heap)
    requires Keeps(h, h') && Keeps(h', h'')
    ensures Keeps(h, h'')
  {
  }

  /** `key in target ? target[key] : <nothing>`: the object's own property
      first, then a native one. */
  function Lookup(env: Env, h: Heap, id: NodeId, k: Key): Option<Val>
    requires id in h.objs
  {
    if k in h.objs[id].own then Some(h.objs[id].own[k])
    else if k in env.builtins then Some(Native(env.builtins[k]))
    else None
  }

  lemma ValidObjGrows(h: Heap, h': Heap, id: NodeId, o: Obj)
    requires ValidObj(h, id, o) && Grows(h, h')
    ensures ValidObj(h', id, o)
  {
  }

  /** Replacing or adding one well-formed object keeps the heap valid. */
  lemma UpdateKeepsValid(h: Heap, id: NodeId, o: Obj, next: NodeId)
    requires Valid(h) && id < next && h.next <= next
    requires ValidObj(h, id, o)
    ensures Valid(Heap(h.objs[id := o], next))
  {
    var h' := Heap(h.objs[id := o], next);
    assert Grows(h, h');
    forall j | j in h'.objs
      ensures j < h'.next && ValidObj(h', j, h'.objs[j])
    {
      if j == id {
        ValidObjGrows(h, h', j, o);
      } else {
        ValidObjGrows(h, h', j, h.objs[j]);
      }
    }
  }

  /** Allocates `o` under the next fresh identity. */
  function Alloc(h: Heap, o: Obj): (r: (NodeId, Heap))
    requires Valid(h) && ValidObj(h, h.next, o)
    ensures r.0 == h.next && r.0 !in h.objs
    ensures r.1 == Heap(h.objs[r.0 := o], h.next + 1)
    ensures Valid(r.1) && Grows(h, r.1)
  {
    UpdateKeepsValid(h, h.next, o, h.next + 1);
    (h.next, Heap(h.objs[h.next := o], h.next + 1))
  }

  /** `target[k] = v`: stores `v` as an own property of `id`. */
  function Store(h: Heap, id: NodeId, k: Key, v: Val): (h': Heap)
    requires Valid(h) && id in h.objs && ValidVal(h, v)
    ensures Valid(h') && Keeps(h, h')
    ensures h'.next == h.next && h'.objs.Keys == h.objs.Keys
    ensures h'.objs[id] == h.objs[id].(own := h.objs[id].own[k := v])
    ensures h'.objs[id].own.Keys == h.objs[id].own.Keys + {k}
    ensures forall j :: j in h.objs && j != id ==> h'.objs[j] == h.objs[j]
  {
    var o := h.objs[id].(own := h.objs[id].own[k := v]);
    assert o.own.Keys == h.objs[id].own.Keys + {k};
    UpdateKeepsValid(h, id, o, h.next);
    Heap(h.objs[id := o], h.next)
  }
}

=== FILE: pipeline_laws.dfy ===
/** Properties of the stage pipeline: the build is a left fold of the
    initial stages and then the pipeline stages over `null`, and the default
    builder's value comes out fresh, behind the Proxy and finalized. */
module PipelineLaws {
  import opened Results
  import opened Objects
  import opened Stages

  /** Continues a partial fold with `rest`; a failure stays a failure. */
  function AndThen(env: Env, r: Result<(Val, Heap)>, rest: seq<Stage>): Result<(Val, Heap)>
    requires r.Ok? ==> Valid(r.value.1) && ValidVal(r.value.1, r.value.0)
  {
    match r
    case Err(e) => Err(e)
    case Ok((v, h)) => RunFrom(env, rest, v, h)
  }

  /** Folding `a + b` is folding `a`, then folding `b` from where `a` left
      off: stages run strictly in index order, each feeding the next. */
  lemma {:induction false} RunFromConcat(env: Env, a: seq<Stage>, b: seq<Stage>, v: Val, h: Heap)
    requires Valid(h) && ValidVal(h, v)
    ensures RunFrom(env, a + b, v, h) == AndThen(env, RunFrom(env, a, v, h), b)
    decreases |a|
  {
    if a == [] {
      assert a + b == b;
    } else {
      assert (a + b)[0] == a[0];
      assert (a + b)[1..] == a[1..] + b;
      match RunStage(env, a[0], v, h)
      case Err(e) =>
      case Ok((v1, h1)) =>
        RunFromConcat(env, a[1..], b, v1, h1);
    }
  }

  /** A build runs every initial stage from the `null` seed, then every
      pipeline stage from what the initial stages produced. */
  lemma BuildRunsInitialThenStages(env: Env, p: Pipeline, h: Heap)
    requires Valid(h)
    ensures Build(env, p, h) == AndThen(env, RunFrom(env, p.initial, Null, h), p.stages)
  {
    RunFromConcat(env, p.initial, p.stages, Null, h);
  }

  /** With no stages at all the build returns the `null` seed itself and
      allocates nothing. */
  lemma EmptyPipelineYieldsSeed(env: Env, h: Heap)
    requires Valid(h)
    ensures Build(env, Pipeline([], []), h) == Ok((Null, h))
  {
  }

  /** Without jest the wrap stage hands its input on unchanged. */
  lemma JestAbsentPassesThrough(env: Env, v: Val, h: Heap)
    requires Valid(h) && ValidVal(h, v)
    ensures RunStage(env, JestWrap(false), v, h) == Ok((v, h))
  {
  }

  /** With jest the wrap stage returns a fresh mock carrying jest's own
      properties, whose call is forwarded to the wrapped value; nothing that
      existed changes. */
  lemma JestPresentWraps(env: Env, v: Val, h: Heap)
    requires Valid(h) && ValidVal(h, v)
    ensures var r := RunStage(env, JestWrap(true), v, h);
      && r.Ok? && r.value.0.Ref? && r.value.0.id !in h.objs
      && r.value.1.objs[r.value.0.id] == Obj(MockOwn(env), Mock(v), false)
      && forall id :: id in h.objs ==> r.value.1.objs[id] == h.objs[id]
  {
  }

  /** Calling object `t` runs a fresh build: `t` is the callable target
      itself, or a mock forwarding to one. */
  predicate CallsRebuild(h: Heap, t: NodeId)
    requires t in h.objs
  {
    match h.objs[t].behaviour
    case Rebuild => true
    case Mock(Ref(f)) => f in h.objs && h.objs[f].behaviour == Rebuild
    case _ => false
  }

  /** `r` succeeded with an object identified at or after `base` that sits
      behind the Proxy, is finalized, runs a fresh build when called, and
      owns exactly the keys `keys`. */
  predicate Ready(env: Env, r: Result<(Val, Heap)>, base: NodeId, keys: set<Key>) {
    && r.Ok? && r.value.0.Ref?
    && base <= r.value.0.id && r.value.0.id in r.value.1.objs
    && r.value.1.objs[r.value.0.id].trapped
    && Finalized(env, r.value.1, r.value.0.id)
    && CallsRebuild(r.value.1, r.value.0.id)
    && r.value.1.objs[r.value.0.id].own.Keys == keys
  }

  /** The Proxy stage followed by the finalizer, on a target whose call
      runs a fresh build, hands on that same target, now behind the Proxy
      and finalized, with the finalizer's keys added to its own. */
  lemma ProxyThenFinalize(env: Env, t: NodeId, h: Heap)
    requires Valid(h) && t in h.objs && CallsRebuild(h, t)
    ensures RunFrom(env, [ProxyWrap, Finalize], Ref(t), h).Ok?
    ensures RunFrom(env, [ProxyWrap, Finalize], Ref(t), h).value.0 == Ref(t)
    ensures Ready(env, RunFrom(env, [ProxyWrap, Finalize], Ref(t), h), t, h.objs[t].own.Keys + FinalKeys)
  {
    var stages := [ProxyWrap, Finalize];
    var h1 := RunStage(env, ProxyWrap, Ref(t), h).value.1;
    assert h1.objs[t] == h.objs[t].(trapped := true);
    assert CallsRebuild(h1, t);
    var r2 := RunStage(env, Finalize, Ref(t), h1);
    var h2 := r2.value.1;
    assert CallsRebuild(h2, t);
    assert stages[1..] == [Finalize];
    assert RunFrom(env, stages[1..], Ref(t), h1) == r2;
  }

  /** The initial stage followed by the jest wrap: a fresh object whose
      call runs a fresh build, carrying jest's own properties or none. */
  lemma MakeThenJest(env: Env, jestPresent: bool, h: Heap)
    requires Valid(h)
    ensures var r := RunFrom(env, [MakeFn, JestWrap(jestPresent)], Null, h);
      && r.Ok? && r.value.0.Ref?
      && h.next <= r.value.0.id && r.value.0.id in r.value.1.objs
      && CallsRebuild(r.value.1, r.value.0.id)
      && r.value.1.objs[r.value.0.id].own.Keys == (if jestPresent then env.mockKeys.Keys else {})
  {
    var f := h.next;
    var h1 := Heap(h.objs[f := Obj(map[], Rebuild, false)], h.next + 1);
    assert RunStage(env, MakeFn, Null, h) == Ok((Ref(f), h1));
    var t := if jestPresent then h1.next else f;
    var h2 := if jestPresent then Heap(h1.objs[t := Obj(MockOwn(env), Mock(Ref(f)), false)], h1.next + 1) else h1;
    assert RunStage(env, JestWrap(jestPresent), Ref(f), h1) == Ok((Ref(t), h2));
    assert h2.objs[t].own.Keys == if jestPresent then env.mockKeys.Keys else {};
    assert CallsRebuild(h2, t);
    assert [MakeFn, JestWrap(jestPresent)][1..] == [JestWrap(jestPresent)];
    assert RunFrom(env, [JestWrap(jestPresent)], Ref(f), h1) == Ok((Ref(t), h2));
    assert RunFrom(env, [MakeFn, JestWrap(jestPresent)], Null, h) == Ok((Ref(t), h2));
  }

  /** The default build always succeeds and yields an object allocated by
      this build that sits behind the Proxy, is finalized, runs a fresh
      build when called, and owns exactly the finalizer's four keys (plus
      jest's own properties when jest is present). */
  lemma DefaultBuildShape(env: Env, jestPresent: bool, h: Heap)
    requires Valid(h)
    ensures Ready(env, Build(env, DefaultBuilder(jestPresent), h), h.next,
                  FinalKeys + (if jestPresent then env.mockKeys.Keys else {}))
  {
    var front := [MakeFn, JestWrap(jestPresent)];
    var back := [ProxyWrap, Finalize];
    MakeThenJest(env, jestPresent, h);
    var r1 := RunFrom(env, front, Null, h);
    var t := r1.value.0.id;
    assert Build(env, DefaultBuilder(jestPresent), h) == RunFrom(env, back, Ref(t), r1.value.1) by {
      assert DefaultBuilder(jestPresent).initial + DefaultBuilder(jestPresent).stages == front + back;
      RunFromConcat(env, front, back, Null, h);
    }
    ProxyThenFinalize(env, t, r1.value.1);
  }
}

=== FILE: proxy_laws.dfy ===
/** Properties of the Proxy traps and of calls: memoised reads, writes that
    override, builds that share nothing, and calls that are not memoised. */
module ProxyLaws {
  import opened Results
  import opened Objects
  import opened Stages
  import opened Traps
  import opened Session
  import opened PipelineLaws

  /** A read behind the Proxy of a key the target does not answer runs
      exactly one build from the current heap: it returns that build's
      value, allocates nothing beyond it, stores the value under `k`, and
      every other key of the target answers as before. */
  lemma GetMissBuildsOnce(env: Env, p: Pipeline, h: Heap, id: NodeId, k: Key)
    requires Valid(h) && id in h.objs && h.objs[id].trapped
    requires Lookup(env, h, id, k).None? && Build(env, p, h).Ok?
    ensures var r := Get(env, p, h, id, k);
      && r.Ok? && r.value.0 == Build(env, p, h).value.0
      && r.value.1.next == Build(env, p, h).value.1.next
      && Lookup(env, r.value.1, id, k) == Some(r.value.0)
      && (forall k' :: k' != k ==> Lookup(env, r.value.1, id, k') == Lookup(env, h, id, k'))
      && forall j :: j in Build(env, p, h).value.1.objs && j != id ==>
           j in r.value.1.objs && r.value.1.objs[j] == Build(env, p, h).value.1.objs[j]
  {
  }

  /** What a read of a missing key returns is a complete value of the same
      kind: on the default builder, a fresh object behind the Proxy,
      finalized, whose call runs a build, owning exactly the finalizer's
      keys (plus jest's). The lazily built tree is self-similar. */
  lemma LazyChildReady(env: Env, jestPresent: bool, h: Heap, id: NodeId, k: Key)
    requires Valid(h) && id in h.objs && h.objs[id].trapped && Lookup(env, h, id, k).None?
    ensures Ready(env, Get(env, DefaultBuilder(jestPresent), h, id, k), h.next,
                  FinalKeys + (if jestPresent then env.mockKeys.Keys else {}))
  {
    var p := DefaultBuilder(jestPresent);
    DefaultBuildShape(env, jestPresent, h);
    var b := Build(env, p, h).value;
    var c := b.0.id;
    var h' := Store(b.1, id, k, Ref(c));
    assert Get(env, p, h, id, k) == Ok((Ref(c), h'));
    assert c != id;
    assert h'.objs[c] == b.1.objs[c];
    assert Keeps(b.1, h');
    assert Lookup(env, h', c, ToStringKey) == Lookup(env, b.1, c, ToStringKey);
    assert Lookup(env, h', c, ValueOfKey) == Lookup(env, b.1, c, ValueOfKey);
    assert Lookup(env, h', c, ThenKey) == Lookup(env, b.1, c, ThenKey);
    assert Lookup(env, h', c, CallsKey) == Lookup(env, b.1, c, CallsKey);
    assert CallsRebuild(h', c);
  }

  /** A second read of the same key returns the identical value and
      changes nothing: no second build. */
  lemma GetMemoised(env: Env, p: Pipeline, h: Heap, id: NodeId, k: Key)
    requires Valid(h) && id in h.objs && Get(env, p, h, id, k).Ok?
    ensures var r := Get(env, p, h, id, k);
      Get(env, p, r.value.1, id, k) == Ok((r.value.0, r.value.1))
  {
  }

  /** Two different keys read for the first time on the same value of the
      default builder yield two different, freshly built values. */
  lemma DistinctKeysDistinctChildren(env: Env, jestPresent: bool, h: Heap, id: NodeId, k1: Key, k2: Key)
    requires Valid(h) && id in h.objs && h.objs[id].trapped && k1 != k2
    requires Lookup(env, h, id, k1).None? && Lookup(env, h, id, k2).None?
    ensures var p := DefaultBuilder(jestPresent);
      var r1 := Get(env, p, h, id, k1);
      && r1.Ok?
      && var r2 := Get(env, p, r1.value.1, id, k2);
      && r2.Ok? && r1.value.0.Ref? && r2.value.0.Ref?
      && h.next <= r1.value.0.id < r2.value.0.id
  {
    var p := DefaultBuilder(jestPresent);
    DefaultBuildShape(env, jestPresent, h);
    var r1 := Get(env, p, h, id, k1);
    DefaultBuildShape(env, jestPresent, r1.value.1);
  }

  /** No key is exempt from lazy building: a symbol key that a default-built
      value does not answer natively is built and stored like any name. */
  lemma NoSymbolBypass(env: Env, jestPresent: bool, h: Heap, tag: nat)
    requires Valid(h)
    requires Symbol(tag) !in env.builtins && (jestPresent ==> Symbol(tag) !in env.mockKeys)
    ensures var p := DefaultBuilder(jestPresent);
      var b := Build(env, p, h);
      && b.Ok? && b.value.0.Ref? && b.value.0.id in b.value.1.objs
      && var r := Get(env, p, b.value.1, b.value.0.id, Symbol(tag));
      && r.Ok? && r.value.0.Ref? && r.value.0.id >= b.value.1.next
      && Lookup(env, r.value.1, b.value.0.id, Symbol(tag)) == Some(r.value.0)
  {
    var p := DefaultBuilder(jestPresent);
    DefaultBuildShape(env, jestPresent, h);
    var b := Build(env, p, h);
    assert Symbol(tag) !in FinalKeys;
    assert Lookup(env, b.value.1, b.value.0.id, Symbol(tag)).None?;
    DefaultBuildShape(env, jestPresent, b.value.1);
  }

  /** After `value[k] = v` the set trap has reported success and a read of
      `k` returns exactly `v`, even `undefined`, with no build. */
  lemma SetThenGet(env: Env, p: Pipeline, h: Heap, id: NodeId, k: Key, v: Val)
    requires Valid(h) && id in h.objs && ValidVal(h, v)
    ensures var s := Set(h, id, k, v);
      s.accepted && Get(env, p, s.heap, id, k) == Ok((v, s.heap))
  {
  }

  /** Whether a session step writes key `k` of object `id`. */
  predicate WritesTo(op: Op, id: NodeId, k: Key) {
    op.Write? && op.target == id && op.key == k
  }

  /** One step that does not write `k` of `id` leaves the answer of a key
      the target already had unchanged. */
  lemma ApplyKeepsPresent(env: Env, p: Pipeline, h: Heap, op: Op, id: NodeId, k: Key)
    requires Valid(h) && id in h.objs && Lookup(env, h, id, k).Some?
    requires !WritesTo(op, id, k) && Apply(env, p, h, op).Ok?
    ensures id in Apply(env, p, h, op).value.objs
    ensures Lookup(env, Apply(env, p, h, op).value, id, k) == Lookup(env, h, id, k)
  {
    match op
    case Read(t, key) =>
    case Write(t, key, v) =>
      if t == id {
        var h' := Set(h, t, key, v).heap;
        assert key != k;
        assert k in h.objs[id].own ==> k in h.objs[id].own - {key};
        assert k in h'.objs[id].own ==> k in h'.objs[id].own - {key};
      }
    case CallOp(t) =>
  }

  /** Once a key is answered, it keeps its answer through any session that
      does not write that key: reads of it, reads and writes of other keys
      and calls never replace a stored value. */
  lemma {:induction false} SessionKeepsPresent(env: Env, p: Pipeline, h: Heap, ops: seq<Op>, id: NodeId, k: Key)
    requires Valid(h) && id in h.objs && Lookup(env, h, id, k).Some?
    requires forall i :: 0 <= i < |ops| ==> !WritesTo(ops[i], id, k)
    ensures var r := RunSession(env, p, h, ops);
      r.Ok? ==> id in r.value.objs && Lookup(env, r.value, id, k) == Lookup(env, h, id, k)
    decreases |ops|
  {
    if ops != [] && Apply(env, p, h, ops[0]).Ok? {
      ApplyKeepsPresent(env, p, h, ops[0], id, k);
      var h1 := Apply(env, p, h, ops[0]).value;
      assert forall i :: 0 <= i < |ops[1..]| ==> !WritesTo(ops[1..][i], id, k) by {
        forall i | 0 <= i < |ops[1..]| ensures !WritesTo(ops[1..][i], id, k) {
          assert ops[1..][i] == ops[i + 1];
        }
      }
      SessionKeepsPresent(env, p, h1, ops[1..], id, k);
    }
  }

  /** A lazily built property is memoised for the rest of the session: after
      the first read, any session that does not write that key leaves a
      later read returning the identical value with no build. */
  lemma ReadStaysMemoised(env: Env, p: Pipeline, h: Heap, id: NodeId, k: Key, ops: seq<Op>)
    requires Valid(h) && id in h.objs && h.objs[id].trapped && Get(env, p, h, id, k).Ok?
    requires forall i :: 0 <= i < |ops| ==> !WritesTo(ops[i], id, k)
    requires RunSession(env, p, Get(env, p, h, id, k).value.1, ops).Ok?
    ensures var r := Get(env, p, h, id, k);
      var h2 := RunSession(env, p, r.value.1, ops).value;
      id in h2.objs && Get(env, p, h2, id, k) == Ok((r.value.0, h2))
  {
    var r := Get(env, p, h, id, k);
    SessionKeepsPresent(env, p, r.value.1, ops, id, k);
  }

  /** A step that does not name object `b` leaves `b` exactly as it was. */
  lemma ApplyLeavesOthers(env: Env, p: Pipeline, h: Heap, op: Op, b: NodeId)
    requires Valid(h) && b in h.objs && op.target != b && Apply(env, p, h, op).Ok?
    ensures b in Apply(env, p, h, op).value.objs
    ensures Apply(env, p, h, op).value.objs[b] == h.objs[b]
  {
  }

  /** Any session that never names object `b` leaves `b`'s key store, call
      behaviour and Proxy untouched. */
  lemma {:induction false} SessionLeavesOthers(env: Env, p: Pipeline, h: Heap, ops: seq<Op>, b: NodeId)
    requires Valid(h) && b in h.objs
    requires forall i :: 0 <= i < |ops| ==> ops[i].target != b
    requires RunSession(env, p, h, ops).Ok?
    ensures b in RunSession(env, p, h, ops).value.objs
    ensures RunSession(env, p, h, ops).value.objs[b] == h.objs[b]
    decreases |ops|
  {
    if ops != [] {
      ApplyLeavesOthers(env, p, h, ops[0], b);
      var h1 := Apply(env, p, h, ops[0]).value;
      assert forall i :: 0 <= i < |ops[1..]| ==> ops[1..][i].target != b by {
        forall i | 0 <= i < |ops[1..]| ensures ops[1..][i].target != b {
          assert ops[1..][i] == ops[i + 1];
        }
      }
      SessionLeavesOthers(env, p, h1, ops[1..], b);
    }
  }

  /** Two builds are two distinct values with disjoint stores: whatever a
      session does to the first (writes, lazy reads, calls), every key of
      the second answers as it did. */
  lemma BuildsAreIndependent(env: Env, p: Pipeline, h: Heap, ops: seq<Op>)
    requires Valid(h)
    requires Build(env, p, h).Ok? && Build(env, p, h).value.0.Ref?
    requires Build(env, p, Build(env, p, h).value.1).Ok?
    requires Build(env, p, Build(env, p, h).value.1).value.0.Ref?
    requires forall i :: 0 <= i < |ops| ==> ops[i].target == Build(env, p, h).value.0.id
    requires RunSession(env, p, Build(env, p, Build(env, p, h).value.1).value.1, ops).Ok?
    ensures var a := Build(env, p, h).value.0.id;
      var b2 := Build(env, p, Build(env, p, h).value.1);
      var b := b2.value.0.id;
      var h3 := RunSession(env, p, b2.value.1, ops).value;
      && a != b && b in h3.objs
      && forall k :: Lookup(env, h3, b, k) == Lookup(env, b2.value.1, b, k)
  {
    var b1 := Build(env, p, h);
    var b2 := Build(env, p, b1.value.1);
    SessionLeavesOthers(env, p, b2.value.1, ops, b2.value.0.id);
  }

  /** Calling the callable target, or a jest mock wrapped around it, is
      exactly one whole new build with the current pipeline. */
  lemma CallRunsBuild(env: Env, p: Pipeline, h: Heap, t: NodeId)
    requires Valid(h) && t in h.objs && CallsRebuild(h, t)
    ensures Call(env, p, h, t) == Build(env, p, h)
  {
  }

  /** Calling a value whose call runs a build is not memoised: two calls in
      a row, whatever their arguments, return two different fresh values,
      each a complete value of the default builder, and neither call
      touches the called value. */
  lemma CallNotMemoised(env: Env, jestPresent: bool, h: Heap, t: NodeId)
    requires Valid(h) && t in h.objs && CallsRebuild(h, t)
    ensures var p := DefaultBuilder(jestPresent);
      var keys := FinalKeys + (if jestPresent then env.mockKeys.Keys else {});
      var c1 := Call(env, p, h, t);
      && Ready(env, c1, h.next, keys)
      && t in c1.value.1.objs && CallsRebuild(c1.value.1, t)
      && var c2 := Call(env, p, c1.value.1, t);
      && Ready(env, c2, c1.value.1.next, keys)
      && h.next <= c1.value.0.id < c2.value.0.id
      && c2.value.1.objs[t] == h.objs[t]
  {
    var p := DefaultBuilder(jestPresent);
    DefaultBuildShape(env, jestPresent, h);
    CallRunsBuild(env, p, h, t);
    var h1 := Build(env, p, h).value.1;
    assert h1.objs[t] == h.objs[t];
    DefaultBuildShape(env, jestPresent, h1);
    CallRunsBuild(env, p, h1, t);
  }
}

=== FILE: results.dfy ===
/** Failure-carrying wrappers shared by the whole model. */
module Results {

  /** A value that may be missing, as a property lookup that finds nothing. */
  datatype Option<+T> = None | Some(value: T)

  /** The exceptions the modelled code can raise. */
  datatype Error =
    /** JavaScript's TypeError: a Proxy around a non-object, a write to a
        property of `null`, a call of something that is not a function. */
    | TypeError
    /** Calling a host-provided function (an inherited method, a jest
        helper) whose behaviour lies outside the model. */
    | Foreign
    /** A session step names an object that was never allocated; real code
        cannot name such an object, so this only guards the model's inputs. */
    | Dangling

  /** Either a computed value or the exception that aborted the computation. */
  datatype Result<+T> = Ok(value: T) | Err(error: Error)
}

=== FILE: session.dfy ===
/** A session: the sequence of reads, writes and calls test code performs
    on built values, applied one after another to the heap. */
module Session {
  import opened Results
  import opened Objects
  import opened Stages
  import opened Traps

  /** One access by test code; objects are named by their identity. */
  datatype Op =
    | Read(target: NodeId, key: Key)
    | Write(target: NodeId, key: Key, value: Val)
    | CallOp(target: NodeId)

  /** Applies one access. The value a read or call yields is dropped; later
      steps name it by its identity if they use it. No object that existed
      changes its call behaviour or its place behind the Proxy. */
  function Apply(env: Env, p: Pipeline, h: Heap, op: Op): (r: Result<Heap>)
    requires Valid(h)
    ensures r.Ok? ==> Valid(r.value) && Keeps(h, r.value)
    ensures op.Write? ==> (r.Ok? <==> op.target in h.objs && ValidVal(h, op.value))
  {
    if op.target !in h.objs then Err(Dangling)
    else
      match op
      case Read(t, k) =>
        (match Get(env, p, h, t, k)
         case Err(e) => Err(e)
         case Ok((_, h1)) => Ok(h1))
      case Write(t, k, v) =>
        if !ValidVal(h, v) then Err(Dangling) else Ok(Set(h, t, k, v).heap)
      case CallOp(t) =>
        match Call(env, p, h, t)
        case Err(e) => Err(e)
        case Ok((_, h1)) =>
          assert Keeps(h, h1);
          Ok(h1)
  }

  /** Applies the accesses in order; the first failure ends the session. */
  function RunSession(env: Env, p: Pipeline, h: Heap, ops: seq<Op>): (r: Result<Heap>)
    requires Valid(h)
    ensures r.Ok? ==> Valid(r.value) && Keeps(h, r.value)
    decreases |ops|
  {
    if ops == [] then Ok(h)
    else
      match Apply(env, p, h, ops[0])
      case Err(e) => Err(e)
      case Ok(h1) =>
        var r := RunSession(env, p, h1, ops[1..]);
        assert r.Ok? ==> Keeps(h, r.value) by {
          if r.Ok? { KeepsTransitive(h, h1, r.value); }
        }
        r
  }
}

=== FILE: stages.dfy ===
/** The stage pipeline: the stages a builder holds, what each does to the
    value flowing through it, and the build that folds them over `null`. */
module Stages {
  import opened Results
  import opened Objects

  /** The stages the builders install. */
  datatype Stage =
    /** The initial stage: ignores its input and makes a fresh callable
        target whose call runs a whole new build. */
    | MakeFn
    /** The optional jest wrap; `present` says whether `jest` is defined. */
    | JestWrap(present: bool)
    /** Puts the value behind the lazy Proxy. */
    | ProxyWrap
    /** The coercion finalizer. */
    | Finalize

  /** The two ordered stage lists of one builder. */
  datatype Pipeline = Pipeline(initial: seq<Stage>, stages: seq<Stage>)

  const StringSentinel: string := "[whatever Moebius]"
  const NumberSentinel: int := 42

  const ToStringKey: Key := Name("toString")
  const ValueOfKey: Key := Name("valueOf")
  const ThenKey: Key := Name("then")
  const CallsKey: Key := Name("calls")

  /** The keys the finalizer stores. */
  const FinalKeys: set<Key> := {ToStringKey, ValueOfKey, ThenKey, CallsKey}

  /** A plain arrow function returning `c`, as the finalizer installs. */
  function Hook(c: Val): Obj {
    Obj(map[], Returns(c), false)
  }

  /** The own properties of a fresh jest mock. */
  function MockOwn(env: Env): map<Key, Val> {
    map k | k in env.mockKeys :: Native(env.mockKeys[k])
  }

  /** Reading `k` on `id` yields a hook whose call returns `c`. */
  predicate HookReturns(env: Env, h: Heap, id: NodeId, k: Key, c: Val)
    requires id in h.objs
  {
    match Lookup(env, h, id, k)
    case Some(Ref(j)) => j in h.objs && h.objs[j].behaviour == Returns(c)
    case _ => false
  }

  /** What the finalizer leaves on a value: coercion hooks answering the two
      sentinels, and `then` and `calls` present and undefined. */
  predicate Finalized(env: Env, h: Heap, id: NodeId) {
    && id in h.objs
    && HookReturns(env, h, id, ToStringKey, Text(StringSentinel))
    && HookReturns(env, h, id, ValueOfKey, Number(NumberSentinel))
    && Lookup(env, h, id, ThenKey) == Some(Undefined)
    && Lookup(env, h, id, CallsKey) == Some(Undefined)
  }

  /** Every object of `h` is in `h'` and unchanged, except possibly the one
      `except` refers to. */
  predicate Untouched(h: Heap, h': Heap, except: Val) {
    forall id :: id in h.objs ==>
      id in h'.objs && (h'.objs[id] == h.objs[id] || (except.Ref? && except.id == id))
  }

  /** `v'` is the input `v` passed on, or an object allocated after `h`. */
  predicate SameOrFresh(v: Val, v': Val, h: Heap) {
    v' == v || (v'.Ref? && v'.id >= h.next)
  }

  /** The heap after the finalizer's writes on target `t`, in source order:
      `toString` set to a fresh arrow returning the string sentinel,
      `valueOf` to a fresh arrow returning the number sentinel, then `then`
      and `calls` set to `undefined`. The arrows take the next two
      identities. */
  function FinalizedHeap(h: Heap, t: NodeId): Heap
    requires t in h.objs
  {
    var s := h.next;
    var n := h.next + 1;
    var own := h.objs[t].own[ToStringKey := Ref(s)][ValueOfKey := Ref(n)]
                            [ThenKey := Undefined][CallsKey := Undefined];
    Heap(h.objs[s := Hook(Text(StringSentinel))][n := Hook(Number(NumberSentinel))]
               [t := h.objs[t].(own := own)], h.next + 2)
  }

  lemma FinalizedHeapValid(h: Heap, t: NodeId)
    requires Valid(h) && t in h.objs
    ensures Valid(FinalizedHeap(h, t))
  {
    var s := h.next;
    var n := h.next + 1;
    var h1 := Heap(h.objs[s := Hook(Text(StringSentinel))], h.next + 1);
    UpdateKeepsValid(h, s, Hook(Text(StringSentinel)), h.next + 1);
    var h2 := Heap(h1.objs[n := Hook(Number(NumberSentinel))], h1.next + 1);
    UpdateKeepsValid(h1, n, Hook(Number(NumberSentinel)), h1.next + 1);
    var o := FinalizedHeap(h, t).objs[t];
    assert ValidObj(h2, t, o) by {
      ValidObjGrows(h, h2, t, h.objs[t]);
    }
    UpdateKeepsValid(h2, t, o, h2.next);
    assert FinalizedHeap(h, t) == Heap(h2.objs[t := o], h2.next);
  }

  /** `o` holds under `toString` and `valueOf` two distinct objects that
      were not allocated in `h`. */
  predicate FreshHooks(h: Heap, o: Obj) {
    && ToStringKey in o.own && o.own[ToStringKey].Ref?
    && ValueOfKey in o.own && o.own[ValueOfKey].Ref?
    && h.next <= o.own[ToStringKey].id && h.next <= o.own[ValueOfKey].id
    && o.own[ToStringKey].id != o.own[ValueOfKey].id
  }

  lemma FinalizedHeapFacts(env: Env, h: Heap, t: NodeId)
    requires Valid(h) && t in h.objs
    ensures Keeps(h, FinalizedHeap(h, t))
    ensures FreshHooks(h, FinalizedHeap(h, t).objs[t])
    ensures forall k :: k in h.objs[t].own && k !in FinalKeys ==>
              FinalizedHeap(h, t).objs[t].own[k] == h.objs[t].own[k]
    ensures Finalized(env, FinalizedHeap(h, t), t)
    ensures FinalizedHeap(h, t).objs[t].own.Keys == h.objs[t].own.Keys + FinalKeys
    ensures forall id :: id in h.objs && id != t ==> FinalizedHeap(h, t).objs[id] == h.objs[id]
  {
  }

  /** The finalizer on target `t`: hooks answering the two sentinels,
      `then` and `calls` undefined; only `t` changes among the objects that
      existed, and only under the four keys the finalizer writes. The two
      hooks are new objects. */
  function FinalizeOn(env: Env, h: Heap, t: NodeId): (h': Heap)
    requires Valid(h) && t in h.objs
    ensures Valid(h') && Keeps(h, h')
    ensures Finalized(env, h', t)
    ensures h'.objs[t].own.Keys == h.objs[t].own.Keys + FinalKeys
    ensures forall k :: k in h.objs[t].own && k !in FinalKeys ==> h'.objs[t].own[k] == h.objs[t].own[k]
    ensures FreshHooks(h, h'.objs[t])
    ensures forall id :: id in h.objs && id != t ==> h'.objs[id] == h.objs[id]
  {
    FinalizedHeapValid(h, t);
    FinalizedHeapFacts(env, h, t);
    FinalizedHeap(h, t)
  }

  /** One stage applied to the value flowing through the pipeline. */
  function RunStage(env: Env, s: Stage, v: Val, h: Heap): (r: Result<(Val, Heap)>)
    requires Valid(h) && ValidVal(h, v)
    ensures r.Err? <==> (s.ProxyWrap? || s.Finalize?) && !v.Ref?
    ensures r.Ok? ==> Valid(r.value.1) && ValidVal(r.value.1, r.value.0) && Grows(h, r.value.1)
    ensures r.Ok? ==> Untouched(h, r.value.1, v) && SameOrFresh(v, r.value.0, h)
    ensures r.Ok? && s.MakeFn? ==>
      r.value.0.Ref? && r.value.0.id !in h.objs && r.value.1.objs[r.value.0.id] == Obj(map[], Rebuild, false)
    ensures r.Ok? && s.Finalize? ==>
      && r.value.0 == v
      && Finalized(env, r.value.1, v.id)
      && r.value.1.objs[v.id].own.Keys == h.objs[v.id].own.Keys + FinalKeys
      && r.value.1.objs[v.id].behaviour == h.objs[v.id].behaviour
      && r.value.1.objs[v.id].trapped == h.objs[v.id].trapped
      && (forall k :: k in h.objs[v.id].own && k !in FinalKeys ==>
            r.value.1.objs[v.id].own[k] == h.objs[v.id].own[k])
      && FreshHooks(h, r.value.1.objs[v.id])
    ensures r.Ok? && s.ProxyWrap? ==>
      r.value.0 == v && r.value.1.objs[v.id] == h.objs[v.id].(trapped := true)
  {
    match s
    case MakeFn =>
      var (f, h1) := Alloc(h, Obj(map[], Rebuild, false));
      Ok((Ref(f), h1))
    case JestWrap(present) =>
      if !present then Ok((v, h))
      else
        var (m, h1) := Alloc(h, Obj(MockOwn(env), Mock(v), false));
        Ok((Ref(m), h1))
    case ProxyWrap =>
      if !v.Ref? then Err(TypeError)
      else
        var o := h.objs[v.id].(trapped := true);
        UpdateKeepsValid(h, v.id, o, h.next);
        Ok((v, Heap(h.objs[v.id := o], h.next)))
    case Finalize =>
      if !v.Ref? then Err(TypeError)
      else Ok((v, FinalizeOn(env, h, v.id)))
  }

  /** The left fold of `stages` starting from `v`: each stage's output is
      the next one's input, and the first failure aborts the rest. */
  function RunFrom(env: Env, stages: seq<Stage>, v: Val, h: Heap): (r: Result<(Val, Heap)>)
    requires Valid(h) && ValidVal(h, v)
    ensures r.Ok? ==> Valid(r.value.1) && ValidVal(r.value.1, r.value.0) && Grows(h, r.value.1)
    ensures r.Ok? ==> Untouched(h, r.value.1, v) && SameOrFresh(v, r.value.0, h)
    decreases |stages|
  {
    if stages == [] then Ok((v, h))
    else
      match RunStage(env, stages[0], v, h)
      case Err(e) => Err(e)
      case Ok((v1, h1)) => RunFrom(env, stages[1..], v1, h1)
  }

  /** `runPipeline`: the initial stages, then the pipeline stages, folded
      over a `null` seed. Every object that existed before is left as it
      was; the result is the seed itself or an object made by this build. */
  function Build(env: Env, p: Pipeline, h: Heap): (r: Result<(Val, Heap)>)
    requires Valid(h)
    ensures r.Ok? ==> Valid(r.value.1) && Grows(h, r.value.1)
    ensures r.Ok? ==> r.value.0 == Null || (r.value.0.Ref? && h.next <= r.value.0.id < r.value.1.next)
    ensures r.Ok? ==> forall id :: id in h.objs ==> r.value.1.objs[id] == h.objs[id]
  {
    RunFrom(env, p.initial + p.stages, Null, h)
  }

  /** `moebiusBuilder()`: the callable-target stage is the one initial
      stage, the Proxy the one pipeline stage, so whatever is later unshifted
      onto the pipeline runs between the two. */
  function MoebiusBuilder(): (p: Pipeline)
    ensures p.initial == [MakeFn] && p.stages == [ProxyWrap]
  {
    Pipeline([MakeFn], [ProxyWrap])
  }

  /** `pipeline.unshift(s)`: `s` runs before every pipeline stage but after
      the initial ones. */
  function Unshift(p: Pipeline, s: Stage): (r: Pipeline)
    ensures r.initial == p.initial && |r.stages| == |p.stages| + 1
    ensures r.stages[0] == s && r.stages[1..] == p.stages
  {
    p.(stages := [s] + p.stages)
  }

  /** `pipeline.push(s)`: `s` runs after every other stage. */
  function Push(p: Pipeline, s: Stage): (r: Pipeline)
    ensures r.initial == p.initial && |r.stages| == |p.stages| + 1
    ensures r.stages[..|p.stages|] == p.stages && r.stages[|p.stages|] == s
  {
    p.(stages := p.stages + [s])
  }

  /** `defaultBuilder`: the jest wrap unshifted in front of the Proxy stage,
      the finalizer pushed behind it. */
  function DefaultBuilder(jestPresent: bool): (p: Pipeline)
    ensures p.initial == [MakeFn]
    ensures p.stages == [JestWrap(jestPresent), ProxyWrap, Finalize]
  {
    Push(Unshift(MoebiusBuilder(), JestWrap(jestPresent)), Finalize)
  }
}

=== FILE: traps.dfy ===
/** What happens when code touches a built value: a property read through
    the Proxy's get trap, a write through its set trap, and a call. */
module Traps {
  import opened Results
  import opened Objects
  import opened Stages

  /** `value[k]`. Behind the Proxy: a key the target answers (own or native)
      returns the stored value; any other key, symbol or string alike, runs
      one whole new build with the current pipeline `p`, stores the result
      under `k` and returns it. A target not behind the Proxy answers
      `undefined` for a missing key. A failing nested build propagates. */
  function Get(env: Env, p: Pipeline, h: Heap, id: NodeId, k: Key): (r: Result<(Val, Heap)>)
    requires Valid(h) && id in h.objs
    ensures Lookup(env, h, id, k).Some? ==> r == Ok((Lookup(env, h, id, k).value, h))
    ensures Lookup(env, h, id, k).None? && !h.objs[id].trapped ==> r == Ok((Undefined, h))
    ensures r.Err? <==> Lookup(env, h, id, k).None? && h.objs[id].trapped && Build(env, p, h).Err?
    ensures r.Ok? ==> Valid(r.value.1) && ValidVal(r.value.1, r.value.0) && Keeps(h, r.value.1)
    ensures r.Ok? && h.objs[id].trapped ==> Lookup(env, r.value.1, id, k) == Some(r.value.0)
    ensures r.Ok? ==> forall k' :: Lookup(env, h, id, k').Some? || k' != k ==>
                        Lookup(env, r.value.1, id, k') == Lookup(env, h, id, k')
    ensures r.Ok? ==> forall j :: j in h.objs && j != id ==> r.value.1.objs[j] == h.objs[j]
  {
    match Lookup(env, h, id, k)
    case Some(x) => Ok((x, h))
    case None =>
      if !h.objs[id].trapped then Ok((Undefined, h))
      else
        match Build(env, p, h)
        case Err(e) => Err(e)
        case Ok((x, h1)) => Ok((x, Store(h1, id, k, x)))
  }

  /** The set trap's answer together with the heap it leaves. */
  datatype SetReport = SetReport(accepted: bool, heap: Heap)

  /** `value[k] = v`: always stored on the target, always reported as
      accepted; no other key and no other object changes. */
  function Set(h: Heap, id: NodeId, k: Key, v: Val): (r: SetReport)
    requires Valid(h) && id in h.objs && ValidVal(h, v)
    ensures r.accepted
    ensures Valid(r.heap) && Keeps(h, r.heap) && r.heap.next == h.next
    ensures k in r.heap.objs[id].own && r.heap.objs[id].own[k] == v
    ensures r.heap.objs[id].own - {k} == h.objs[id].own - {k}
    ensures forall j :: j in h.objs && j != id ==> r.heap.objs[j] == h.objs[j]
  {
    SetReport(true, Store(h, id, k, v))
  }

  /** `value()`: the callable target runs a fresh build on every call,
      whatever the arguments; a hook returns its constant; a jest mock
      forwards to the function it wraps (a mock around nothing returns
      `undefined`). No object that existed before the call changes. */
  function Call(env: Env, p: Pipeline, h: Heap, id: NodeId): (r: Result<(Val, Heap)>)
    requires Valid(h) && id in h.objs
    ensures r.Ok? ==> Valid(r.value.1) && ValidVal(r.value.1, r.value.0) && Grows(h, r.value.1)
    ensures r.Ok? ==> forall j :: j in h.objs ==> r.value.1.objs[j] == h.objs[j]
    decreases id
  {
    match h.objs[id].behaviour
    case Rebuild => Build(env, p, h)
    case Returns(c) => Ok((c, h))
    case Mock(impl) =>
      if impl.Ref? then Call(env, p, h, impl.id)
      else if impl == Null || impl == Undefined then Ok((Undefined, h))
      else Err(TypeError)
  }

  /** `value[k]()`: reads `k` through the get trap and calls what it finds. */
  function Invoke(env: Env, p: Pipeline, h: Heap, id: NodeId, k: Key): (r: Result<(Val, Heap)>)
    requires Valid(h) && id in h.objs
    ensures r.Ok? ==> Valid(r.value.1) && ValidVal(r.value.1, r.value.0) && Grows(h, r.value.1)
  {
    match Get(env, p, h, id, k)
    case Err(e) => Err(e)
    case Ok((f, h1)) =>
      match f
      case Ref(j) => Call(env, p, h1, j)
      case Native(_) => Err(Foreign)
      case _ => Err(TypeError)
  }
}
